=== FILE: README.md ===
# RadioX station directory: a Dafny model

RadioX is a browser player for internet radio stations. Under its React views
sit a few pieces of plain list and state logic, and this project models them:

- the **station list controller** (`useRadioStations`): the popularity sort of
  the fetched list, the case-insensitive search over name, tags and language,
  the page counter behind "Load More", the revealed prefix and `hasMore`, and
  the loading and error flags of a fetch;
- the **favorites store** (`useFavorites`): add, remove and membership on a
  list keyed by `changeuuid`, and the rule for its initial value;
- the **playback coordinator and view selection** (`App`): the current station,
  the per-card "currently playing" flag, the favorite toggle, the
  all-stations/favorites switch, the displayed list and the "Load More" and
  now-playing conditions;
- the **station card** (`StationCard`): `togglePlay`, the audio element's
  `onError` handler and the effect that pauses a card when it stops being the
  playing station. A `Screen` combines the coordinator with the cards on
  display to prove that only a current card produces sound.

Files: `wrappers.dfy` (Option, Result), `seqs.dfy` (order-preserving filter,
subsequences), `text.dfy` (lower-casing, `includes`), `station.dfy` (records),
`popularity.dfy` (the sort), `station_list.dfy`, `favorites.dfy`,
`station_card.dfy`, `app.dfy`.

Everything is a pure function over immutable values. The network, the audio
device, storage and the clock are parameters. A fetch is reduced to its
`FetchOutcome`, an `audio.play()` to its `PlayAttempt`, the stored favorites
slot to a `StoredSlot` plus a `parse` function, and `Date.now()` to a `now`
argument. The callbacks a card receives from the app come back as a
`Callback` value, which `App.Dispatch` hands to the coordinator.

Four behaviours of the code are easy to misread; the model follows the code:

- A failed `play()` inside `togglePlay` calls no callback, so the coordinator
  keeps its station (src/components/StationCard.tsx:57-62). On a failure, only
  the audio element's `onError` calls `onStop` (src/components/StationCard.tsx:173-176).
  That handler clears the current station even when the failing card was not
  the current one (`App.AudioError`).
- Stored favorites that `JSON.parse` rejects are not caught, so they do not
  give an empty list (src/hooks/useFavorites.ts:5-8). `Favorites.InitialFavorites`
  returns `Err(ParseThrew)` for them.
- A successful fetch sets both lists to the sorted data. It does not re-apply
  the current query and does not reset the page
  (src/hooks/useRadioStations.ts:45-46). `StationList.FetchKeepsStaleQuery`
  exhibits a query that selects nothing while the whole list is shown.
- "Load More" is rendered inside the not-loading branch, so it also needs the
  list not to be loading (src/App.tsx:97-131).

## Model

| member | source | states |
|---|---|---|
| Popularity.SortByPopularity | src/hooks/useRadioStations.ts:41-43 | the sorted list is a permutation of the data and `votes + clickcount` never increases along it |
| Popularity.SortStable | src/hooks/useRadioStations.ts:41-43 | stations of equal popularity keep the order the directory returned them in (the sort is stable) |
| Popularity.StableSortUnique | src/hooks/useRadioStations.ts:41-43 | any popularity-ordered list that keeps every equal-popularity group in input order is exactly the sorted list |
| Popularity.SortIdempotent | src/hooks/useRadioStations.ts:41-43 | sorting the sorted list changes nothing |
| Text.Includes | src/hooks/useRadioStations.ts:64 | `includes` holds iff the pattern occurs at some position of the text |
| StationList.FilterStations | src/hooks/useRadioStations.ts:60-65 | the result is a subsequence of the full list; a station is in it iff the lowercased query occurs in its lowercased "name tags language" text, with every copy kept |
| StationList.TagsMatch | src/hooks/useRadioStations.ts:60-65 | a query found, ignoring case, in the tags selects the station |
| StationList.FilterEmptyQuery | src/hooks/useRadioStations.ts:60-65 | the empty query keeps every station |
| StationList.FilterCaseInsensitive | src/hooks/useRadioStations.ts:63-64 | a query and its lower-cased form select the same stations |
| StationList.HandleSearch | src/hooks/useRadioStations.ts:58-68 | a search records the query, resets the page to 1 and selects from the full list exactly the matching stations, in order and with every copy |
| StationList.SearchIgnoresPreviousResult | src/hooks/useRadioStations.ts:60-66 | the result of a search does not depend on the previous filtered list or page |
| StationList.SearchIdempotent | src/hooks/useRadioStations.ts:58-68 | searching twice for the same query gives the state one search gives |
| StationList.Initial | src/hooks/useRadioStations.ts:8-13 | the controller starts empty, on page 1, not loading, with no error and the empty query |
| StationList.LoadMore | src/hooks/useRadioStations.ts:70-72 | the page grows by exactly one and the lists, query and flags are unchanged |
| StationList.LoadMoreExtendsDisplay | src/hooks/useRadioStations.ts:70-75 | "Load More" keeps the shown stations as a prefix and adds up to twelve more |
| StationList.Paginated | src/hooks/useRadioStations.ts:74 | the shown stations are the prefix of the filtered list of length min(page*12, filtered length) |
| StationList.HasMore | src/hooks/useRadioStations.ts:75 | `hasMore` holds iff page*12 is less than the filtered length |
| StationList.TwentyStationsTwoPages | src/hooks/useRadioStations.ts:4 | twenty stations show twelve with more to come, and all twenty after one "Load More" |
| StationList.BeginFetch | src/hooks/useRadioStations.ts:26-27 | a fetch starts loading with the error cleared and the lists untouched |
| StationList.FinishFetch | src/hooks/useRadioStations.ts:36-55 | every outcome ends with loading off, page and query untouched |
| StationList.FetchStations | src/hooks/useRadioStations.ts:26-55 | error is null iff the fetch succeeded or was aborted; a non-ok response gives "Failed to fetch stations", another error its message; success sets both lists to the stably sorted data |
| StationList.FetchKeepsStaleQuery | src/hooks/useRadioStations.ts:45-46 | a fetch completing after a search shows the whole list under a query that selects none of it |
| StationList.ValidPreserved | src/hooks/useRadioStations.ts:45-72 | search, "Load More" and fetch keep the page at least 1 and the filtered list a subsequence of the full list |
| Favorites.IsFavorite | src/hooks/useFavorites.ts:25-27 | an id is a favorite iff some entry has it |
| Favorites.AddFavorite | src/hooks/useFavorites.ts:14-19 | no-op when the id is present; otherwise one entry carrying the station and `now` is appended, earlier entries unchanged; unique ids are kept |
| Favorites.RemoveFavorite | src/hooks/useFavorites.ts:21-23 | exactly the entries with the id are dropped, the rest kept in order |
| Favorites.RemoveKeepsUnique | src/hooks/useFavorites.ts:22 | removing keeps ids unique |
| Favorites.AddThenRemove | src/hooks/useFavorites.ts:16-22 | adding an absent station and removing its id gives back the original list |
| Favorites.AddIdempotent | src/hooks/useFavorites.ts:16 | adding the same station twice adds it once |
| Favorites.RemoveAbsent | src/hooks/useFavorites.ts:22 | removing an absent id changes nothing |
| Favorites.InitialFavorites | src/hooks/useFavorites.ts:5-8 | an absent or empty slot gives the empty list; other text gives what the parser gives, and a parser failure is an error, not an empty list |
| App.Play | src/App.tsx:29-31 | the given station becomes current; nothing else changes |
| App.Stop | src/App.tsx:33-35 | no station is current; nothing else changes |
| App.IsCurrentlyPlaying | src/App.tsx:123 | a card is flagged iff a station is current and its `changeuuid` equals the card station's, whatever the other fields of either record |
| App.AtMostOneFlagged | src/App.tsx:123 | with unique ids at most one card is flagged as playing |
| App.PlayThenPlay | src/App.tsx:29-31 | after playing A then B only B is flagged |
| App.StopClearsFlags | src/App.tsx:33-35 | after stopping no card is flagged |
| App.NowPlaying | src/App.tsx:172 | the now-playing bar is shown iff a station is current, and shows that station |
| App.NowPlayingFollowsCoordinator | src/App.tsx:172 | the bar shows the station just played and disappears on stop |
| App.ToggleFavorite | src/App.tsx:118-122 | the toggled station's favorite status flips and every other id keeps its status; a favorite loses exactly its entries, the rest kept in order with every copy; a non-favorite is appended as `Favorite(station, now)` after the unchanged list |
| App.ToggleKeepsUnique | src/App.tsx:118-122 | toggling keeps favorite ids unique |
| App.ToggleTwiceRestores | src/App.tsx:118-122 | toggling a non-favorite twice restores the favorites list exactly |
| App.ToggleView | src/App.tsx:69 | the view button flips the favorites view and changes nothing else |
| App.Displayed | src/App.tsx:27 | `displayedStations` (the grid itself is hidden while loading): in the favorites view every favorite's station in order; otherwise a prefix of the filtered list of length min(page*12, filtered length) |
| App.ShowLoadMore | src/App.tsx:97-131 | "Load More" is rendered iff the list is not loading, the favorites view is off and page*12 is less than the filtered length |
| App.ShowLoadMoreMeaning | src/App.tsx:97-131 | "Load More" is offered iff not loading, not in the favorites view and fewer stations are shown than selected |
| App.RunEffects | src/components/StationCard.tsx:33-37 | only cards whose playing flag changed run the pause effect; a card that lost the flag is silent afterwards, a card that gained it is untouched, and no card's error, loading flag or possession of an audio element changes |
| App.ClickPlay | src/components/StationCard.tsx:33-65 | a press keeps "only the current card sounds"; a successful play makes the card current and sounding; a failed one leaves the coordinator unchanged and shows the error; pressing the current card stops and silences it; a card without an audio element changes nothing; the list, favorites and view are untouched, and every other card whose flag did not change is untouched |
| App.AudioError | src/components/StationCard.tsx:173-176 | an audio error clears the current station, shows the error and keeps "only the current card sounds"; the list, favorites and view are untouched, and every other card that was not flagged is untouched |
| App.AtMostOneSounding | src/components/StationCard.tsx:33-37 | with unique ids and only current cards sounding, at most one card produces sound |
| App.SwitchStations | src/components/StationCard.tsx:33-51 | a successful press on B while A plays makes B current and sounding and silences A |
| StationCard.InitialCard | src/components/StationCard.tsx:28-29 | a card starts idle with no error and silent audio |
| StationCard.TogglePlay | src/components/StationCard.tsx:39-66 | no audio element: nothing happens; current card: `onStop` only; otherwise `onPlay(station)` exactly when play succeeds, with the error cleared, and the error message with no callback when it fails; loading is off afterwards |
| StationCard.OnAudioError | src/components/StationCard.tsx:173-176 | the handler calls `onStop` and shows "Failed to play station" |
| StationCard.PauseEffect | src/components/StationCard.tsx:33-37 | a card that is no longer current is silent afterwards; a current card is untouched |

## Left out

- The HTTP request, its `AbortController` and JSON decoding of the response (src/hooks/useRadioStations.ts:14-34, 77-86): network I/O, reduced to a `FetchOutcome`. Superseding an in-flight request is therefore not modelled; an abort is just one outcome.
- Reading and writing `localStorage` and the JSON round trip of the favorites list (src/hooks/useFavorites.ts:6-12): storage I/O, reduced to a `StoredSlot` and a `parse` function. What `JSON.parse` yields is trusted to be a favorites list; stored data is not checked for duplicate ids.
- Text.Lower: models `toLowerCase` on ASCII letters only, because full Unicode case mapping is outside the model.
- Stations.Score: `votes` and `clickcount` are unbounded integers; JavaScript numbers (doubles) and non-integer values are not modelled.
- The debounced search box (src/components/SearchBar.tsx): its timer-based `debounce` comes from a file that is not part of this model; the controller sees each query it is handed.
- AudioControls (volume and mute, never used by App), NowPlaying, StationDetails and Wave: presentation and floating-point volume, not used by the logic above.
- Async interleaving: each `togglePlay`, `onError` and fetch is one atomic step; concurrent presses on several cards while `play()` is pending are not modelled.
- Mounting and unmounting cards when the view or page changes: a card's audio stops with its element, which `Screen` does not represent; `Screen` keeps a fixed set of cards.
- Toasts, console logging, animations and styling.

=== FILE: app.dfy ===
/**
 * The application shell: which station is playing (the playback coordinator),
 * the favorite toggle, the choice between the all-stations and favorites views,
 * and what the page shows. `Screen` puts the coordinator together with the
 * cards on display to state the one-stream-at-a-time property.
 */
module App {
  import opened Wrappers
  import opened Seqs
  import opened Stations
  import opened StationList
  import opened Favorites
  import opened StationCard

  datatype AppState = AppState(
    list: ListState,
    favorites: seq<Favorite>,
    showFavorites: bool,
    current: Option<Station>)

  /** `handlePlay`: the given station becomes the current one, whatever was playing. */
  function Play(app: AppState, station: Station): (r: AppState)
    ensures r.current == Some(station)
    ensures r.list == app.list && r.favorites == app.favorites && r.showFavorites == app.showFavorites
  {
    app.(current := Some(station))
  }

  /** `handleStop`: nothing is current. */
  function Stop(app: AppState): (r: AppState)
    ensures r.current == None
    ensures r.list == app.list && r.favorites == app.favorites && r.showFavorites == app.showFavorites
  {
    app.(current := None)
  }

  /** The flag a card receives: its station has the current station's identifier. */
  predicate IsCurrentlyPlaying(current: Option<Station>, station: Station)
    ensures current == None ==> !IsCurrentlyPlaying(current, station)
    ensures current == Some(station) ==> IsCurrentlyPlaying(current, station)
    ensures IsCurrentlyPlaying(current, station) ==> current.Some? && current.value.changeuuid == station.changeuuid
    ensures current.Some? && current.value.changeuuid == station.changeuuid ==> IsCurrentlyPlaying(current, station)
  {
    current.Some? && current.value.changeuuid == station.changeuuid
  }

  /** Among stations with distinct identifiers, at most one is flagged as playing. */
  lemma AtMostOneFlagged(current: Option<Station>, stations: seq<Station>, i: int, j: int)
    requires UniqueIds(stations)
    requires 0 <= i < |stations| && 0 <= j < |stations|
    requires IsCurrentlyPlaying(current, stations[i]) && IsCurrentlyPlaying(current, stations[j])
    ensures i == j
  {
  }

  /** Playing A and then B leaves only B flagged. */
  lemma PlayThenPlay(app: AppState, a: Station, b: Station)
    requires a.changeuuid != b.changeuuid
    ensures IsCurrentlyPlaying(Play(Play(app, a), b).current, b)
    ensures !IsCurrentlyPlaying(Play(Play(app, a), b).current, a)
  {
  }

  /** After stopping no card is flagged. */
  lemma StopClearsFlags(app: AppState, station: Station)
    ensures !IsCurrentlyPlaying(Stop(app).current, station)
  {
  }

  /** The now-playing bar: shown exactly when a station is current, and for that station. */
  function NowPlaying(app: AppState): (r: Option<Station>)
    ensures r.Some? <==> app.current.Some?
    ensures r.Some? ==> r.value == app.current.value
  {
    app.current
  }

  /** The bar follows the coordinator: it shows the station just played and disappears on stop. */
  lemma NowPlayingFollowsCoordinator(app: AppState, station: Station)
    ensures NowPlaying(Play(app, station)) == Some(station)
    ensures NowPlaying(Stop(app)) == None
  {
  }

  /** The heart button: remove the station when it is a favorite, add it otherwise. */
  function ToggleFavorite(favs: seq<Favorite>, station: Station, now: int): (r: seq<Favorite>)
    ensures IsFavorite(r, station.changeuuid) <==> !IsFavorite(favs, station.changeuuid)
    ensures forall id :: id != station.changeuuid ==> (IsFavorite(r, id) <==> IsFavorite(favs, id))
    ensures IsFavorite(favs, station.changeuuid) ==>
      && IsSubsequence(r, favs)
      && (forall f :: f in r <==> f in favs && f.Id() != station.changeuuid)
      && (forall f :: multiset(r)[f] == if f.Id() != station.changeuuid then multiset(favs)[f] else 0)
    ensures !IsFavorite(favs, station.changeuuid) ==> r == favs + [Favorite(station, now)]
  {
    if IsFavorite(favs, station.changeuuid) then RemoveFavorite(favs, station.changeuuid)
    else AddFavorite(favs, station, now)
  }

  /** Toggling keeps identifiers unique. */
  lemma ToggleKeepsUnique(favs: seq<Favorite>, station: Station, now: int)
    requires NoDuplicateIds(favs)
    ensures NoDuplicateIds(ToggleFavorite(favs, station, now))
  {
    if IsFavorite(favs, station.changeuuid) {
      RemoveKeepsUnique(favs, station.changeuuid);
    }
  }

  /** Toggling a non-favorite twice gives back the same list. */
  lemma ToggleTwiceRestores(favs: seq<Favorite>, station: Station, now: int, later: int)
    requires !IsFavorite(favs, station.changeuuid)
    ensures ToggleFavorite(ToggleFavorite(favs, station, now), station, later) == favs
  {
    AddThenRemove(favs, station, now);
  }

  /** The view button flips between all stations and favorites. */
  function ToggleView(app: AppState): (r: AppState)
    ensures r.showFavorites != app.showFavorites
    ensures r.list == app.list && r.favorites == app.favorites && r.current == app.current
  {
    app.(showFavorites := !app.showFavorites)
  }

  /** The station records of the favorites, in the favorites' order. */
  function FavoriteStations(favs: seq<Favorite>): seq<Station> {
    Map(favs, (f: Favorite) => f.station)
  }

  /** `displayedStations`: every favorite in the favorites view, otherwise the revealed pages (no grid is rendered while loading). */
  function Displayed(app: AppState): (r: seq<Station>)
    ensures app.showFavorites ==> |r| == |app.favorites|
    ensures app.showFavorites ==> forall i :: 0 <= i < |r| ==> r[i] == app.favorites[i].station
    ensures !app.showFavorites ==> r <= app.list.filtered
    ensures !app.showFavorites ==> |r| == Min(app.list.page * StationsPerPage, |app.list.filtered|)
  {
    if app.showFavorites then FavoriteStations(app.favorites) else Paginated(app.list)
  }

  /** "Load More" is offered when the list is not loading, the favorites view is off and pages remain. */
  predicate ShowLoadMore(app: AppState)
    ensures ShowLoadMore(app) <==>
      !app.list.isLoading && !app.showFavorites && app.list.page * StationsPerPage < |app.list.filtered|
  {
    !app.list.isLoading && !app.showFavorites && HasMore(app.list)
  }

  /** The button is offered exactly when fewer stations are shown than the search selected. */
  lemma ShowLoadMoreMeaning(app: AppState)
    ensures ShowLoadMore(app) <==>
      !app.list.isLoading && !app.showFavorites && |Displayed(app)| < |app.list.filtered|
    ensures ShowLoadMore(app) ==> app.list.page * StationsPerPage < |app.list.filtered|
  {
  }

  /** Hands a card's callback to the coordinator: `onPlay` is `handlePlay`, `onStop` is `handleStop`. */
  function Dispatch(app: AppState, callback: Callback): (r: AppState)
    ensures callback == NoCallback ==> r == app
    ensures callback == CallStop ==> r == Stop(app)
    ensures callback.CallPlay? ==> r == Play(app, callback.station)
  {
    match callback
    case NoCallback => app
    case CallStop => Stop(app)
    case CallPlay(station) => Play(app, station)
  }

  /** A card on display and the station it shows. */
  datatype Slot = Slot(station: Station, card: Card)

  datatype Screen = Screen(app: AppState, slots: seq<Slot>)

  /** The stations the cards show, in screen order. */
  function SlotStations(slots: seq<Slot>): seq<Station> {
    Map(slots, (s: Slot) => s.station)
  }

  /** Only a card whose station is current produces sound. */
  ghost predicate OnlyCurrentSounds(sc: Screen) {
    forall k :: 0 <= k < |sc.slots| && Sounding(sc.slots[k].card) ==>
      IsCurrentlyPlaying(sc.app.current, sc.slots[k].station)
  }

  /** Runs the pause effect of every card whose `isCurrentlyPlaying` flag changed. */
  function RunEffects(slots: seq<Slot>, before: Option<Station>, after: Option<Station>): (r: seq<Slot>)
    ensures |r| == |slots|
    ensures forall k :: 0 <= k < |slots| ==> r[k].station == slots[k].station
    ensures forall k :: 0 <= k < |slots| ==>
      (IsCurrentlyPlaying(before, slots[k].station) == IsCurrentlyPlaying(after, slots[k].station) ==> r[k] == slots[k])
    ensures forall k :: 0 <= k < |slots| ==>
      (IsCurrentlyPlaying(before, slots[k].station) && !IsCurrentlyPlaying(after, slots[k].station) ==> !Sounding(r[k].card))
    ensures forall k :: 0 <= k < |slots| && IsCurrentlyPlaying(after, slots[k].station) ==> r[k] == slots[k]
    ensures forall k :: 0 <= k < |slots| ==>
      r[k].card.error == slots[k].card.error && r[k].card.isLoading == slots[k].card.isLoading
    ensures forall k :: 0 <= k < |slots| ==> r[k].card.audio.Element? == slots[k].card.audio.Element?
  {
    seq(|slots|, k requires 0 <= k < |slots| =>
      var flag := IsCurrentlyPlaying(after, slots[k].station);
      if IsCurrentlyPlaying(before, slots[k].station) != flag
      then Slot(slots[k].station, PauseEffect(slots[k].card, flag))
      else slots[k])
  }

  /** The card at `i` has its play button pressed; the app and every card react. */
  function ClickPlay(sc: Screen, i: int, attempt: PlayAttempt): (r: Screen)
    requires 0 <= i < |sc.slots|
    ensures SlotStations(r.slots) == SlotStations(sc.slots)
    ensures OnlyCurrentSounds(sc) ==> OnlyCurrentSounds(r)
    ensures sc.slots[i].card.audio.Element? && !IsCurrentlyPlaying(sc.app.current, sc.slots[i].station) ==>
      (attempt == PlayOk ==> r.app.current == Some(sc.slots[i].station) && Sounding(r.slots[i].card))
      && (attempt == PlayFails ==> r.app == sc.app && r.slots[i].card.error == Some(PlayFailedMessage))
    ensures sc.slots[i].card.audio.Element? && IsCurrentlyPlaying(sc.app.current, sc.slots[i].station) ==>
      r.app.current == None && !Sounding(r.slots[i].card)
    ensures r.app.list == sc.app.list && r.app.favorites == sc.app.favorites && r.app.showFavorites == sc.app.showFavorites
    ensures sc.slots[i].card.audio == NoElement ==> r == sc
    ensures forall k :: 0 <= k < |sc.slots| && k != i ==>
      (IsCurrentlyPlaying(sc.app.current, sc.slots[k].station) == IsCurrentlyPlaying(r.app.current, sc.slots[k].station) ==> r.slots[k] == sc.slots[k])
  {
    var slot := sc.slots[i];
    var step := TogglePlay(slot.card, slot.station, IsCurrentlyPlaying(sc.app.current, slot.station), attempt);
    var app := Dispatch(sc.app, step.callback);
    Screen(app, RunEffects(sc.slots[i := Slot(slot.station, step.card)], sc.app.current, app.current))
  }

  /** The audio element of the card at `i` reports an error. */
  function AudioError(sc: Screen, i: int): (r: Screen)
    requires 0 <= i < |sc.slots|
    ensures SlotStations(r.slots) == SlotStations(sc.slots)
    ensures r.app.current == None
    ensures r.slots[i].card.error == Some(PlayFailedMessage)
    ensures OnlyCurrentSounds(sc) ==> OnlyCurrentSounds(r)
    ensures r.app.list == sc.app.list && r.app.favorites == sc.app.favorites && r.app.showFavorites == sc.app.showFavorites
    ensures forall k :: 0 <= k < |sc.slots| && k != i && !IsCurrentlyPlaying(sc.app.current, sc.slots[k].station) ==> r.slots[k] == sc.slots[k]
  {
    var slot := sc.slots[i];
    var step := OnAudioError(slot.card);
    var app := Dispatch(sc.app, step.callback);
    Screen(app, RunEffects(sc.slots[i := Slot(slot.station, step.card)], sc.app.current, app.current))
  }

  /** With distinct identifiers on screen, at most one card produces sound. */
  lemma AtMostOneSounding(sc: Screen, j: int, k: int)
    requires UniqueIds(SlotStations(sc.slots)) && OnlyCurrentSounds(sc)
    requires 0 <= j < |sc.slots| && 0 <= k < |sc.slots|
    requires Sounding(sc.slots[j].card) && Sounding(sc.slots[k].card)
    ensures j == k
  {
    var s := SlotStations(sc.slots);
    assert s[j] == sc.slots[j].station && s[k] == sc.slots[k].station;
    AtMostOneFlagged(sc.app.current, s, j, k);
  }

  /**
   * Switching stations: while card `a` plays, a successful press on card `b`
   * makes `b` current and sounding and silences `a`.
   */
  lemma SwitchStations(sc: Screen, a: int, b: int)
    requires 0 <= a < |sc.slots| && 0 <= b < |sc.slots|
    requires sc.slots[a].station.changeuuid != sc.slots[b].station.changeuuid
    requires sc.app.current == Some(sc.slots[a].station) && Sounding(sc.slots[a].card)
    requires sc.slots[b].card.audio.Element?
    ensures ClickPlay(sc, b, PlayOk).app.current == Some(sc.slots[b].station)
    ensures Sounding(ClickPlay(sc, b, PlayOk).slots[b].card)
    ensures !Sounding(ClickPlay(sc, b, PlayOk).slots[a].card)
  {
  }
}

=== FILE: favorites.dfy ===
/**
 * The favorites store: a list of favorited stations, keyed by `changeuuid`,
 * in the order they were added. Persistence is left to the caller; this module
 * is the in-memory list and the rule for its initial value.
 */
module Favorites {
  import opened Wrappers
  import opened Seqs
  import opened Stations

  /** No two entries share an identifier. */
  ghost predicate NoDuplicateIds(favs: seq<Favorite>) {
    forall i, j :: 0 <= i < j < |favs| ==> favs[i].Id() != favs[j].Id()
  }

  /** `favorites.some(f => f.changeuuid === id)`. */
  function IsFavorite(favs: seq<Favorite>, id: string): (r: bool)
    ensures r <==> exists i :: 0 <= i < |favs| && favs[i].Id() == id
    decreases |favs|
  {
    if |favs| == 0 then false
    else if favs[0].Id() == id then true
    else
      var rest := IsFavorite(favs[1..], id);
      assert forall i :: 1 <= i < |favs| ==> favs[i] == favs[1..][i - 1];
      rest
  }

  /**
   * Favorites a station, stamping the copy with `now` (the clock is a parameter).
   * A station whose identifier is already present leaves the list as it is.
   */
  function AddFavorite(favs: seq<Favorite>, station: Station, now: int): (r: seq<Favorite>)
    ensures |r| == |favs| + (if IsFavorite(favs, station.changeuuid) then 0 else 1)
    ensures r[..|favs|] == favs
    ensures !IsFavorite(favs, station.changeuuid) ==> r[|favs|] == Favorite(station, now)
    ensures forall id :: IsFavorite(r, id) <==> IsFavorite(favs, id) || id == station.changeuuid
    ensures NoDuplicateIds(favs) ==> NoDuplicateIds(r)
  {
    if IsFavorite(favs, station.changeuuid) then favs
    else
      var r := favs + [Favorite(station, now)];
      assert r[|favs|].Id() == station.changeuuid;
      r
  }

  /** Drops every entry with identifier `id`, keeping the others in order. */
  function RemoveFavorite(favs: seq<Favorite>, id: string): (r: seq<Favorite>)
    ensures IsSubsequence(r, favs)
    ensures forall f :: f in r <==> f in favs && f.Id() != id
    ensures forall f :: multiset(r)[f] == if f.Id() != id then multiset(favs)[f] else 0
    ensures forall x :: IsFavorite(r, x) <==> IsFavorite(favs, x) && x != id
  {
    var r := Filter(favs, (f: Favorite) => f.Id() != id);
    assert forall x :: IsFavorite(r, x) <==> IsFavorite(favs, x) && x != id by {
      forall x
        ensures IsFavorite(r, x) <==> IsFavorite(favs, x) && x != id
      {
        if IsFavorite(r, x) {
          var i :| 0 <= i < |r| && r[i].Id() == x;
          assert r[i] in favs;
        }
        if IsFavorite(favs, x) && x != id {
          var i :| 0 <= i < |favs| && favs[i].Id() == x;
          assert favs[i] in r;
        }
      }
    }
    r
  }

  lemma RemoveCons(favs: seq<Favorite>, id: string)
    requires |favs| > 0
    ensures RemoveFavorite(favs, id) ==
      (if favs[0].Id() != id then [favs[0]] else []) + RemoveFavorite(favs[1..], id)
  {
  }

  lemma TailUnique(favs: seq<Favorite>)
    requires |favs| > 0 && NoDuplicateIds(favs)
    ensures NoDuplicateIds(favs[1..])
    ensures forall j :: 1 <= j < |favs| ==> favs[j].Id() != favs[0].Id()
  {
    var tail := favs[1..];
    forall i, j | 0 <= i < j < |tail|
      ensures tail[i].Id() != tail[j].Id()
    {
      assert tail[i] == favs[i + 1] && tail[j] == favs[j + 1];
    }
  }

  lemma ConsUnique(f: Favorite, rest: seq<Favorite>)
    requires NoDuplicateIds(rest)
    requires forall g :: g in rest ==> g.Id() != f.Id()
    ensures NoDuplicateIds([f] + rest)
  {
    var s := [f] + rest;
    forall i, j | 0 <= i < j < |s|
      ensures s[i].Id() != s[j].Id()
    {
      assert s[j] == rest[j - 1];
      if i > 0 {
        assert s[i] == rest[i - 1];
      }
    }
  }

  /** Removing keeps identifiers unique. */
  lemma {:induction false} RemoveKeepsUnique(favs: seq<Favorite>, id: string)
    requires NoDuplicateIds(favs)
    ensures NoDuplicateIds(RemoveFavorite(favs, id))
    decreases |favs|
  {
    if |favs| > 0 {
      var tail := favs[1..];
      TailUnique(favs);
      RemoveKeepsUnique(tail, id);
      RemoveCons(favs, id);
      var rest := RemoveFavorite(tail, id);
      if favs[0].Id() != id {
        forall g | g in rest
          ensures g.Id() != favs[0].Id()
        {
          var k :| 0 <= k < |tail| && tail[k] == g;
          assert favs[k + 1] == g;
        }
        ConsUnique(favs[0], rest);
      }
    }
  }

  /** Adding a station that is not yet a favorite and then removing it gives back the same list. */
  lemma AddThenRemove(favs: seq<Favorite>, station: Station, now: int)
    requires !IsFavorite(favs, station.changeuuid)
    ensures RemoveFavorite(AddFavorite(favs, station, now), station.changeuuid) == favs
  {
    var id := station.changeuuid;
    var p := (f: Favorite) => f.Id() != id;
    FilterAppend(favs, [Favorite(station, now)], p);
    FilterKeepsAll(favs, p);
    assert Filter([Favorite(station, now)], p) == [];
  }

  /** Adding the same station twice adds it once. */
  lemma AddIdempotent(favs: seq<Favorite>, station: Station, now: int, later: int)
    ensures AddFavorite(AddFavorite(favs, station, now), station, later) == AddFavorite(favs, station, now)
  {
  }

  /** Removing an identifier that is not present changes nothing. */
  lemma RemoveAbsent(favs: seq<Favorite>, id: string)
    requires !IsFavorite(favs, id)
    ensures RemoveFavorite(favs, id) == favs
  {
    FilterKeepsAll(favs, (f: Favorite) => f.Id() != id);
  }

  /** The persisted slot as read at start-up. */
  datatype StoredSlot = Absent | Stored(text: string)

  /** `JSON.parse` threw: the source does not catch it, so the store never initialises. */
  datatype LoadError = ParseThrew

  /**
   * The initial favorites. An absent or empty slot gives the empty list; any
   * other text goes to `parse` (standing for `JSON.parse`), whose failure is
   * not caught.
   */
  function InitialFavorites(slot: StoredSlot, parse: string -> Option<seq<Favorite>>): (r: Result<seq<Favorite>, LoadError>)
    ensures slot == Absent || slot == Stored("") ==> r == Ok([])
    ensures slot.Stored? && slot.text != "" ==> (r.Ok? <==> parse(slot.text).Some?)
    ensures slot.Stored? && slot.text != "" && r.Ok? ==> r.value == parse(slot.text).value
  {
    match slot
    case Absent => Ok([])
    case Stored(text) =>
      if text == "" then Ok([])
      else
        match parse(text)
        case Some(favs) => Ok(favs)
        case None => Err(ParseThrew)
  }
}

=== FILE: popularity.dfy ===
/**
 * Ordering of the fetched station list: most popular first, where popularity is
 * `votes + clickcount`. JavaScript's `Array.prototype.sort` is stable, so
 * stations of equal popularity keep the order the directory returned them in.
 */
module Popularity {
  import opened Seqs
  import opened Stations

  /** Popularity never increases along `s`. */
  ghost predicate SortedByScore(s: seq<Station>) {
    forall i, j :: 0 <= i < j < |s| ==> Score(s[i]) >= Score(s[j])
  }

  /** The stations of `s` whose popularity is `k`, in their order in `s`. */
  function ScoreGroup(s: seq<Station>, k: int): seq<Station> {
    Filter(s, x => Score(x) == k)
  }

  /** Puts `x` in front of the first station that is not more popular than it. */
  function Insert(x: Station, t: seq<Station>): (r: seq<Station>)
    ensures multiset(r) == multiset(t) + multiset{x}
    ensures SortedByScore(t) ==> SortedByScore(r)
    decreases |t|
  {
    if |t| == 0 || Score(x) >= Score(t[0]) then
      SortedCons(x, t);
      [x] + t
    else
      assert t == [t[0]] + t[1..];
      var rest := Insert(x, t[1..]);
      assert forall z :: z in rest ==> z == x || z in t[1..] by {
        forall z | z in rest
          ensures z == x || z in t[1..]
        {
          assert z in multiset(rest);
        }
      }
      SortedCons(t[0], rest);
      [t[0]] + rest
  }

  /** A station at least as popular as every station of a sorted list can go in front of it. */
  lemma SortedCons(y: Station, s: seq<Station>)
    ensures SortedByScore(s) && (forall z :: z in s ==> Score(y) >= Score(z)) ==> SortedByScore([y] + s)
  {
    if SortedByScore(s) && (forall z :: z in s ==> Score(y) >= Score(z)) {
      forall i, j | 0 <= i < j < |[y] + s|
        ensures Score(([y] + s)[i]) >= Score(([y] + s)[j])
      {
        if i == 0 {
          assert ([y] + s)[j] == s[j - 1];
        }
      }
    }
  }

  /** The comparator `(b.votes + b.clickcount) - (a.votes + a.clickcount)` under a stable sort. */
  function SortByPopularity(s: seq<Station>): (r: seq<Station>)
    ensures multiset(r) == multiset(s)
    ensures SortedByScore(r)
    decreases |s|
  {
    if |s| == 0 then []
    else
      assert s == [s[0]] + s[1..];
      Insert(s[0], SortByPopularity(s[1..]))
  }

  lemma ScoreGroupCons(x: Station, t: seq<Station>, k: int)
    ensures ScoreGroup([x] + t, k) == (if Score(x) == k then [x] else []) + ScoreGroup(t, k)
  {
    assert ([x] + t)[1..] == t;
  }

  /** Inserting `x` keeps every popularity group in the order of `[x] + t`. */
  lemma {:induction false} InsertStable(x: Station, t: seq<Station>, k: int)
    ensures ScoreGroup(Insert(x, t), k) == ScoreGroup([x] + t, k)
    decreases |t|
  {
    if |t| > 0 && Score(x) < Score(t[0]) {
      InsertStable(x, t[1..], k);
      ScoreGroupCons(t[0], Insert(x, t[1..]), k);
      ScoreGroupCons(x, t[1..], k);
      ScoreGroupCons(x, t, k);
      assert t == [t[0]] + t[1..];
      ScoreGroupCons(t[0], t[1..], k);
    }
  }

  /** Stability: among stations of equal popularity the sort keeps the input order. */
  lemma {:induction false} SortStable(s: seq<Station>, k: int)
    ensures ScoreGroup(SortByPopularity(s), k) == ScoreGroup(s, k)
    decreases |s|
  {
    if |s| > 0 {
      SortStable(s[1..], k);
      InsertStable(s[0], SortByPopularity(s[1..]), k);
      ScoreGroupCons(s[0], SortByPopularity(s[1..]), k);
      assert s == [s[0]] + s[1..];
      ScoreGroupCons(s[0], s[1..], k);
    }
  }

  /** Stability for every popularity at once. */
  lemma SortStableAll(s: seq<Station>)
    ensures forall k :: ScoreGroup(SortByPopularity(s), k) == ScoreGroup(s, k)
  {
    forall k
      ensures ScoreGroup(SortByPopularity(s), k) == ScoreGroup(s, k)
    {
      SortStable(s, k);
    }
  }

  /** A list that is already in popularity order is left as it is. */
  lemma {:induction false} SortKeepsSorted(s: seq<Station>)
    requires SortedByScore(s)
    ensures SortByPopularity(s) == s
    decreases |s|
  {
    if |s| > 0 {
      SortKeepsSorted(s[1..]);
      assert s == [s[0]] + s[1..];
    }
  }

  /** Sorting twice gives the order sorting once gives. */
  lemma SortIdempotent(s: seq<Station>)
    ensures SortByPopularity(SortByPopularity(s)) == SortByPopularity(s)
  {
    SortKeepsSorted(SortByPopularity(s));
  }

  /** The head of a sorted list is at least as popular as anything in a list with the same groups. */
  lemma HeadBound(u: seq<Station>, v: seq<Station>)
    requires SortedByScore(v) && |u| > 0 && |v| > 0
    requires forall k :: ScoreGroup(u, k) == ScoreGroup(v, k)
    ensures Score(v[0]) >= Score(u[0])
  {
    var a := Score(u[0]);
    assert u[0] in ScoreGroup(u, a);
    assert u[0] in ScoreGroup(v, a);
    var j :| 0 <= j < |v| && v[j] == u[0];
  }

  /** Equal groups and equally popular heads force equal heads and equal tail groups. */
  lemma HeadsAndTails(u: seq<Station>, v: seq<Station>)
    requires |u| > 0 && |v| > 0 && Score(u[0]) == Score(v[0])
    requires forall k :: ScoreGroup(u, k) == ScoreGroup(v, k)
    ensures u[0] == v[0]
    ensures forall k :: ScoreGroup(u[1..], k) == ScoreGroup(v[1..], k)
  {
    var a := Score(u[0]);
    assert u == [u[0]] + u[1..];
    assert v == [v[0]] + v[1..];
    forall k
      ensures ScoreGroup(u, k) == (if Score(u[0]) == k then [u[0]] else []) + ScoreGroup(u[1..], k)
      ensures ScoreGroup(v, k) == (if Score(v[0]) == k then [v[0]] else []) + ScoreGroup(v[1..], k)
    {
      ScoreGroupCons(u[0], u[1..], k);
      ScoreGroupCons(v[0], v[1..], k);
    }
    assert ScoreGroup(u, a)[0] == u[0];
    assert ScoreGroup(v, a)[0] == v[0];
    forall k
      ensures ScoreGroup(u[1..], k) == ScoreGroup(v[1..], k)
    {
      if k == a {
        assert ScoreGroup(u, k) == [u[0]] + ScoreGroup(u[1..], k);
        assert ScoreGroup(v, k) == [v[0]] + ScoreGroup(v[1..], k);
      }
    }
  }

  lemma HeadInOwnGroup(v: seq<Station>)
    requires |v| > 0
    ensures v[0] in ScoreGroup(v, Score(v[0]))
  {
  }

  /** Only the empty list has the groups of the empty list. */
  lemma EmptyGroups(u: seq<Station>, v: seq<Station>)
    requires |u| == 0
    requires forall k :: ScoreGroup(u, k) == ScoreGroup(v, k)
    ensures |v| == 0
  {
    if |v| > 0 {
      HeadInOwnGroup(v);
    }
  }

  lemma SortedTail(s: seq<Station>)
    requires |s| > 0 && SortedByScore(s)
    ensures SortedByScore(s[1..])
  {
    forall i, j | 0 <= i < j < |s[1..]|
      ensures Score(s[1..][i]) >= Score(s[1..][j])
    {
      assert s[1..][i] == s[i + 1] && s[1..][j] == s[j + 1];
    }
  }

  /** Two popularity-ordered lists with the same popularity groups are equal. */
  lemma {:induction false} SortedGroupsDetermine(u: seq<Station>, v: seq<Station>)
    requires SortedByScore(u) && SortedByScore(v)
    requires forall k :: ScoreGroup(u, k) == ScoreGroup(v, k)
    ensures u == v
    decreases |u| + |v|
  {
    if |u| == 0 || |v| == 0 {
      if |u| == 0 {
        EmptyGroups(u, v);
      } else {
        EmptyGroups(v, u);
      }
    } else {
      HeadBound(u, v);
      HeadBound(v, u);
      HeadsAndTails(u, v);
      SortedTail(u);
      SortedTail(v);
      SortedGroupsDetermine(u[1..], v[1..]);
      assert u == [u[0]] + u[1..];
      assert v == [v[0]] + v[1..];
    }
  }

  /**
   * The sort is the unique stable popularity ordering: any list that is in
   * popularity order and keeps each popularity group of `s` in input order is
   * exactly `SortByPopularity(s)`.
   */
  lemma StableSortUnique(s: seq<Station>, u: seq<Station>)
    requires SortedByScore(u)
    requires forall k :: ScoreGroup(u, k) == ScoreGroup(s, k)
    ensures u == SortByPopularity(s)
  {
    SortStableAll(s);
    SortedGroupsDetermine(u, SortByPopularity(s));
  }
}

=== FILE: seqs.dfy ===
/** Generic sequence facts: order-preserving filtering and subsequences. */
module Seqs {

  /** `a` can be obtained from `b` by deleting elements, keeping the order of the rest. */
  ghost predicate IsSubsequence<T>(a: seq<T>, b: seq<T>)
    decreases |b|
  {
    |a| == 0 || (|b| > 0 && ((a[0] == b[0] && IsSubsequence(a[1..], b[1..])) || IsSubsequence(a, b[1..])))
  }

  /** Every sequence is a subsequence of itself. */
  lemma {:induction false} SubsequenceReflexive<T>(a: seq<T>)
    ensures IsSubsequence(a, a)
    decreases |a|
  {
    if |a| > 0 {
      SubsequenceReflexive(a[1..]);
    }
  }

  /** `f` applied to every element of `s`, in order (JavaScript's `Array.map`). */
  function Map<A, B>(s: seq<A>, f: A -> B): (r: seq<B>)
    ensures |r| == |s|
    ensures forall i :: 0 <= i < |s| ==> r[i] == f(s[i])
  {
    seq(|s|, i requires 0 <= i < |s| => f(s[i]))
  }

  /** The elements of `s` that satisfy `p`, in their original order (JavaScript's `Array.filter`). */
  function Filter<T(==,!new)>(s: seq<T>, p: T -> bool): (r: seq<T>)
    ensures |r| <= |s|
    ensures IsSubsequence(r, s)
    ensures forall x :: x in r <==> x in s && p(x)
    ensures forall x :: multiset(r)[x] == if p(x) then multiset(s)[x] else 0
    decreases |s|
  {
    if |s| == 0 then []
    else
      var rest := Filter(s[1..], p);
      assert s == [s[0]] + s[1..];
      assert multiset(s) == multiset{s[0]} + multiset(s[1..]);
      if p(s[0]) then
        assert ([s[0]] + rest)[1..] == rest;
        [s[0]] + rest
      else rest
  }

  /** A filter whose predicate holds of every element keeps the sequence as it is. */
  lemma {:induction false} FilterKeepsAll<T(!new)>(s: seq<T>, p: T -> bool)
    requires forall i :: 0 <= i < |s| ==> p(s[i])
    ensures Filter(s, p) == s
    decreases |s|
  {
    if |s| > 0 {
      FilterKeepsAll(s[1..], p);
    }
  }

  /** Filtering a concatenation filters each part. */
  lemma {:induction false} FilterAppend<T(!new)>(a: seq<T>, b: seq<T>, p: T -> bool)
    ensures Filter(a + b, p) == Filter(a, p) + Filter(b, p)
    decreases |a|
  {
    if |a| > 0 {
      assert (a + b)[1..] == a[1..] + b;
      FilterAppend(a[1..], b, p);
    } else {
      assert a + b == b;
    }
  }

  /** Filters with predicates that agree on the elements of `s` give the same result. */
  lemma {:induction false} FilterAgree<T(!new)>(s: seq<T>, p: T -> bool, q: T -> bool)
    requires forall i :: 0 <= i < |s| ==> p(s[i]) == q(s[i])
    ensures Filter(s, p) == Filter(s, q)
    decreases |s|
  {
    if |s| > 0 {
      FilterAgree(s[1..], p, q);
    }
  }
}

=== FILE: station.dfy ===
/** The records the directory service delivers and the favorites list stores. */
module Stations {

  /**
   * One directory entry. `changeuuid` identifies it; `votes` and `clickcount`
   * rank it. The model treats the numeric fields as unbounded integers.
   */
  datatype Station = Station(
    changeuuid: string,
    name: string,
    url: string,
    urlResolved: string,
    homepage: string,
    favicon: string,
    tags: string,
    country: string,
    language: string,
    votes: int,
    codec: string,
    bitrate: int,
    clickcount: int)

  /** A favorited station: a copy of the station's fields plus when it was added (epoch milliseconds). */
  datatype Favorite = Favorite(station: Station, addedAt: int)
  {
    function Id(): string {
      station.changeuuid
    }
  }

  /** Popularity, the sort key of the station list. */
  function Score(s: Station): int {
    s.votes + s.clickcount
  }

  /** No two stations of `s` share an identifier. */
  ghost predicate UniqueIds(s: seq<Station>) {
    forall i, j :: 0 <= i < j < |s| ==> s[i].changeuuid != s[j].changeuuid
  }
}

=== FILE: station_card.dfy ===
/**
 * One station card's playback logic: the play/pause button, the audio
 * element's error handler, and the effect that pauses the card's audio once it
 * is no longer the playing station. The audio element's `play()` is reduced to
 * its outcome; the callbacks the card receives from the app are returned as a
 * `Callback` value instead of being called.
 */
module StationCard {
  import opened Wrappers
  import opened Stations

  /** The error a card shows when its stream cannot be played. */
  const PlayFailedMessage: string := "Failed to play station"

  /** The card's audio element: not mounted, or mounted and producing sound or not. */
  datatype Audio = NoElement | Element(playing: bool)

  datatype Card = Card(isLoading: bool, error: Option<string>, audio: Audio)

  /** How the awaited `audio.play()` settles. */
  datatype PlayAttempt = PlayOk | PlayFails

  /** Which of the app's callbacks the card invoked. */
  datatype Callback = NoCallback | CallStop | CallPlay(station: Station)

  datatype Step = Step(card: Card, callback: Callback)

  /** The card is producing sound. */
  predicate Sounding(card: Card) {
    card.audio == Element(true)
  }

  /** A freshly mounted card: idle, no error, audio (if any) silent. */
  function InitialCard(hasAudio: bool): (c: Card)
    ensures !c.isLoading && c.error == None && !Sounding(c)
    ensures c.audio.Element? <==> hasAudio
  {
    Card(false, None, if hasAudio then Element(false) else NoElement)
  }

  /**
   * `togglePlay`, as one atomic step. A playing card asks the app to stop. An
   * idle card reloads its audio, and only when `play()` succeeds asks the app to
   * play this station; a failed `play()` shows the error and calls neither
   * callback.
   */
  function TogglePlay(card: Card, station: Station, isCurrentlyPlaying: bool, attempt: PlayAttempt): (r: Step)
    ensures card.audio == NoElement ==> r == Step(card, NoCallback)
    ensures card.audio.Element? ==> !r.card.isLoading
    ensures r.card.audio.Element? == card.audio.Element?
    ensures r.callback == CallStop <==> card.audio.Element? && isCurrentlyPlaying
    ensures r.callback.CallPlay? <==> card.audio.Element? && !isCurrentlyPlaying && attempt == PlayOk
    ensures r.callback.CallPlay? ==> r.callback.station == station && r.card.error == None && Sounding(r.card)
    ensures card.audio.Element? && !isCurrentlyPlaying && attempt == PlayFails ==>
      r.callback == NoCallback && r.card.error == Some(PlayFailedMessage) && !Sounding(r.card)
    ensures isCurrentlyPlaying ==> r.card.error == card.error && r.card.audio == card.audio
  {
    if card.audio == NoElement then Step(card, NoCallback)
    else if isCurrentlyPlaying then Step(card.(isLoading := false), CallStop)
    else
      // `load()` resets the element, so it is silent unless `play()` succeeds.
      match attempt
      case PlayOk => Step(Card(false, None, Element(true)), CallPlay(station))
      case PlayFails => Step(Card(false, Some(PlayFailedMessage), Element(false)), NoCallback)
  }

  /** The audio element's `onError`: ask the app to stop and show the error. */
  function OnAudioError(card: Card): (r: Step)
    ensures r.callback == CallStop
    ensures r.card.error == Some(PlayFailedMessage)
    ensures r.card.audio == card.audio && r.card.isLoading == card.isLoading
  {
    Step(card.(error := Some(PlayFailedMessage)), CallStop)
  }

  /** The effect run when `isCurrentlyPlaying` changes: a card that lost the designation pauses. */
  function PauseEffect(card: Card, isCurrentlyPlaying: bool): (r: Card)
    ensures !isCurrentlyPlaying ==> !Sounding(r)
    ensures isCurrentlyPlaying ==> r == card
    ensures r.error == card.error && r.isLoading == card.isLoading
    ensures r.audio.Element? == card.audio.Element?
  {
    if !isCurrentlyPlaying && card.audio.Element? then card.(audio := Element(false)) else card
  }
}

=== FILE: station_list.dfy ===
/**
 * The station list controller: the full list as fetched and sorted, the
 * filtered list the search box selects, the page counter behind "Load More",
 * and the loading and error flags of the fetch.
 */
module StationList {
  import opened Wrappers
  import opened Seqs
  import opened Text
  import opened Stations
  import opened Popularity

  /** Stations revealed per page. */
  const StationsPerPage: nat := 12

  /** The error shown when the directory answers with a non-2xx status. */
  const FetchFailedMessage: string := "Failed to fetch stations"

  /** The error shown when something that is not an `Error` object is thrown. */
  const UnknownErrorMessage: string := "An error occurred"

  datatype ListState = ListState(
    stations: seq<Station>,   // the full list, sorted by popularity
    filtered: seq<Station>,   // what the current search selected
    page: nat,                // pages revealed, starting at 1
    isLoading: bool,
    error: Option<string>,
    query: string)

  /** What a fetch ended in, with the network and JSON decoding left abstract. */
  datatype FetchOutcome =
    | Fetched(data: seq<Station>)   // a 2xx response whose body decoded to `data`
    | HttpNotOk                     // a response whose `ok` flag is false
    | Aborted                       // the request was cancelled
    | Failed(message: string)       // any other thrown `Error`, with its message
    | NonErrorThrown                // a thrown value that is not an `Error`

  /** The state before anything is fetched. */
  function Initial(): (st: ListState)
    ensures Valid(st)
    ensures st.page == 1
    ensures st.stations == [] && st.filtered == [] && st.query == ""
    ensures !st.isLoading && st.error == None
  {
    SubsequenceReflexive<Station>([]);
    ListState([], [], 1, false, None, "")
  }

  /** What the controller keeps true: a page is revealed and the filtered list is drawn from the full one. */
  ghost predicate Valid(st: ListState) {
    st.page >= 1 && IsSubsequence(st.filtered, st.stations)
  }

  /** The text a query is matched against: name, tags and language joined by spaces. */
  function SearchText(s: Station): string {
    s.name + " " + s.tags + " " + s.language
  }

  /** Case-insensitive substring match of `query` against the station's search text. */
  predicate Matches(s: Station, query: string) {
    Includes(Lower(SearchText(s)), Lower(query))
  }

  /** A query found, ignoring case, in a station's tags selects the station. */
  lemma TagsMatch(s: Station, query: string)
    requires IsSubstring(Lower(query), Lower(s.tags))
    ensures Matches(s, query)
  {
    LowerAppend(s.name + " ", s.tags);
    LowerAppend(s.name + " " + s.tags, " " + s.language);
    assert SearchText(s) == (s.name + " ") + s.tags + (" " + s.language);
    assert Lower(SearchText(s)) == Lower(s.name + " ") + Lower(s.tags) + Lower(" " + s.language);
    SubstringOfMiddle(Lower(query), Lower(s.name + " "), Lower(s.tags), Lower(" " + s.language));
  }

  /** The stations of `all` that the query selects, in their order in `all`. */
  function FilterStations(all: seq<Station>, query: string): (r: seq<Station>)
    ensures IsSubsequence(r, all)
    ensures forall x :: x in r <==> x in all && IsSubstring(Lower(query), Lower(SearchText(x)))
    ensures forall x :: multiset(r)[x] == if Matches(x, query) then multiset(all)[x] else 0
  {
    Filter(all, x => Matches(x, query))
  }

  /** The empty query selects every station. */
  lemma FilterEmptyQuery(all: seq<Station>)
    ensures FilterStations(all, "") == all
  {
    forall i | 0 <= i < |all|
      ensures Matches(all[i], "")
    {
      assert OccursAt("", Lower(SearchText(all[i])), 0);
    }
    FilterKeepsAll(all, x => Matches(x, ""));
  }

  /** Matching ignores the case of the query. */
  lemma FilterCaseInsensitive(all: seq<Station>, query: string)
    ensures FilterStations(all, Lower(query)) == FilterStations(all, query)
  {
    LowerIdempotent(query);
    FilterAgree(all, x => Matches(x, Lower(query)), x => Matches(x, query));
  }

  /** Typing a query: record it, filter the FULL list afresh and go back to page 1. */
  function HandleSearch(st: ListState, query: string): (r: ListState)
    ensures r.query == query && r.page == 1
    ensures r.stations == st.stations && r.isLoading == st.isLoading && r.error == st.error
    ensures forall x :: x in r.filtered <==> x in st.stations && Matches(x, query)
    ensures forall x :: multiset(r.filtered)[x] == if Matches(x, query) then multiset(st.stations)[x] else 0
    ensures IsSubsequence(r.filtered, st.stations)
  {
    st.(query := query, filtered := FilterStations(st.stations, query), page := 1)
  }

  /** A search does not look at the previous filtered list or page. */
  lemma SearchIgnoresPreviousResult(a: ListState, b: ListState, query: string)
    requires a.stations == b.stations && a.isLoading == b.isLoading && a.error == b.error
    ensures HandleSearch(a, query) == HandleSearch(b, query)
  {
  }

  /** Searching twice for the same query is searching once. */
  lemma SearchIdempotent(st: ListState, query: string)
    ensures HandleSearch(HandleSearch(st, query), query) == HandleSearch(st, query)
  {
  }

  /** "Load More": reveal one more page. */
  function LoadMore(st: ListState): (r: ListState)
    ensures r.page == st.page + 1
    ensures r.stations == st.stations && r.filtered == st.filtered && r.query == st.query
    ensures r.isLoading == st.isLoading && r.error == st.error
  {
    st.(page := st.page + 1)
  }

  function Min(a: int, b: int): int {
    if a <= b then a else b
  }

  /** `filtered.slice(0, page * 12)`: the stations on the revealed pages. */
  function Paginated(st: ListState): (r: seq<Station>)
    ensures |r| == Min(st.page * StationsPerPage, |st.filtered|)
    ensures r == st.filtered[..|r|]
  {
    var end := st.page * StationsPerPage;
    if end < |st.filtered| then st.filtered[..end] else st.filtered
  }

  /** Whether fewer stations are shown than the search selected. */
  function HasMore(st: ListState): (r: bool)
    ensures r <==> st.page * StationsPerPage < |st.filtered|
  {
    |Paginated(st)| < |st.filtered|
  }

  /** "Load More" keeps what is shown and appends up to one page of the filtered list. */
  lemma LoadMoreExtendsDisplay(st: ListState)
    ensures Paginated(st) <= Paginated(LoadMore(st))
    ensures |Paginated(LoadMore(st))| == Min(|Paginated(st)| + StationsPerPage, |st.filtered|)
    ensures !HasMore(st) ==> Paginated(LoadMore(st)) == Paginated(st)
  {
  }

  /** The start of a fetch: loading, with any previous error cleared. */
  function BeginFetch(st: ListState): (r: ListState)
    ensures r.isLoading && r.error == None
    ensures r.stations == st.stations && r.filtered == st.filtered
    ensures r.page == st.page && r.query == st.query
  {
    st.(isLoading := true, error := None)
  }

  /** The end of a fetch: apply the outcome, then stop loading whatever happened. */
  function FinishFetch(st: ListState, outcome: FetchOutcome): (r: ListState)
    ensures !r.isLoading
    ensures r.page == st.page && r.query == st.query
  {
    var applied :=
      match outcome
      case Fetched(data) =>
        var sorted := SortByPopularity(data);
        st.(stations := sorted, filtered := sorted)
      case HttpNotOk => st.(error := Some(FetchFailedMessage))
      case Aborted => st
      case Failed(message) => st.(error := Some(message))
      case NonErrorThrown => st.(error := Some(UnknownErrorMessage));
    applied.(isLoading := false)
  }

  /**
   * One whole `fetchStations` call. A successful fetch replaces both lists by the
   * sorted data without re-applying the current query and without touching the page.
   */
  function FetchStations(st: ListState, outcome: FetchOutcome): (r: ListState)
    ensures !r.isLoading
    ensures r.page == st.page && r.query == st.query
    ensures r.error == None <==> outcome.Fetched? || outcome.Aborted?
    ensures outcome == HttpNotOk ==> r.error == Some(FetchFailedMessage)
    ensures outcome.Failed? ==> r.error == Some(outcome.message)
    ensures outcome == NonErrorThrown ==> r.error == Some(UnknownErrorMessage)
    ensures outcome.Fetched? ==>
      && r.filtered == r.stations
      && multiset(r.stations) == multiset(outcome.data)
      && SortedByScore(r.stations)
      && (forall k :: ScoreGroup(r.stations, k) == ScoreGroup(outcome.data, k))
    ensures !outcome.Fetched? ==> r.stations == st.stations && r.filtered == st.filtered
  {
    if outcome.Fetched? then
      SortStableAll(outcome.data);
      FinishFetch(BeginFetch(st), outcome)
    else
      FinishFetch(BeginFetch(st), outcome)
  }

  /** Every operation keeps the controller's invariant. */
  lemma ValidPreserved(st: ListState, query: string, outcome: FetchOutcome)
    requires Valid(st)
    ensures Valid(HandleSearch(st, query))
    ensures Valid(LoadMore(st))
    ensures Valid(FetchStations(st, outcome))
  {
    var r := FetchStations(st, outcome);
    if outcome.Fetched? {
      SubsequenceReflexive(r.stations);
    }
  }

  /** Twenty stations at twelve per page: one page shows twelve, "Load More" shows all twenty. */
  lemma TwentyStationsTwoPages(st: ListState)
    requires |st.filtered| == 20 && st.page == 1
    ensures |Paginated(st)| == 12 && HasMore(st)
    ensures Paginated(LoadMore(st)) == st.filtered && !HasMore(LoadMore(st))
  {
  }

  /**
   * A fetch that completes after a search shows the whole fetched list under a
   * query that selects none of it: the query is kept but not re-applied.
   */
  lemma FetchKeepsStaleQuery(s: Station)
    requires s.name == "Rock" && s.tags == "" && s.language == ""
    ensures var r := FetchStations(HandleSearch(Initial(), "jazz"), Fetched([s]));
      && r.query == "jazz"
      && r.filtered == [s]
      && FilterStations(r.stations, r.query) == []
  {
    var text := Lower(SearchText(s));
    assert SearchText(s) == "Rock  ";
    assert forall i :: 0 <= i < |text| ==> text[i] != 'j';
    FirstCharAbsent(Lower("jazz"), text);
    assert !Matches(s, "jazz");
    assert SortByPopularity([s]) == [s];
  }
}

=== FILE: text.dfy ===
/**
 * Strings as the search box treats them: lower-casing (restricted to ASCII) and
 * JavaScript's `String.prototype.includes`.
 */
module Text {

  predicate IsUpper(c: char) {
    'A' <= c <= 'Z'
  }

  /** ASCII lower-casing of one character. */
  function LowerChar(c: char): (r: char)
    ensures !IsUpper(r)
    ensures !IsUpper(c) ==> r == c
  {
    if IsUpper(c) then (c as int + 32) as char else c
  }

  /** `toLowerCase`, restricted to the ASCII letters. */
  function Lower(s: string): (r: string)
    ensures |r| == |s|
    ensures forall i :: 0 <= i < |s| ==> r[i] == LowerChar(s[i])
  {
    seq(|s|, i requires 0 <= i < |s| => LowerChar(s[i]))
  }

  /** Lower-casing twice is lower-casing once. */
  lemma LowerIdempotent(s: string)
    ensures Lower(Lower(s)) == Lower(s)
  {
    assert forall i :: 0 <= i < |s| ==> Lower(Lower(s))[i] == Lower(s)[i];
  }

  /** Lower-casing distributes over concatenation. */
  lemma LowerAppend(a: string, b: string)
    ensures Lower(a + b) == Lower(a) + Lower(b)
  {
    assert forall i :: 0 <= i < |a + b| ==> Lower(a + b)[i] == (Lower(a) + Lower(b))[i];
  }

  /** `pat` occurs in `text` starting at position `i`. */
  ghost predicate OccursAt(pat: string, text: string, i: int) {
    0 <= i && i + |pat| <= |text| && text[i..i + |pat|] == pat
  }

  ghost predicate IsSubstring(pat: string, text: string) {
    exists i :: OccursAt(pat, text, i)
  }

  /** When `pat` is not at the front of `text`, it occurs in `text` iff it occurs in the tail. */
  lemma ShiftOccurrence(pat: string, text: string)
    requires |text| > 0 && !OccursAt(pat, text, 0)
    ensures IsSubstring(pat, text) <==> IsSubstring(pat, text[1..])
  {
    if IsSubstring(pat, text) {
      var i :| OccursAt(pat, text, i);
      assert text[1..][i - 1..i - 1 + |pat|] == text[i..i + |pat|];
      assert OccursAt(pat, text[1..], i - 1);
    }
    if IsSubstring(pat, text[1..]) {
      var j :| OccursAt(pat, text[1..], j);
      assert text[1..][j..j + |pat|] == text[j + 1..j + 1 + |pat|];
      assert OccursAt(pat, text, j + 1);
    }
  }

  /** `text.includes(pat)`: whether `pat` occurs somewhere in `text`. */
  function Includes(text: string, pat: string): (r: bool)
    ensures r <==> IsSubstring(pat, text)
    decreases |text|
  {
    if |pat| > |text| then false
    else if text[..|pat|] == pat then
      assert OccursAt(pat, text, 0);
      true
    else
      ShiftOccurrence(pat, text);
      Includes(text[1..], pat)
  }

  /** A pattern whose first character appears nowhere in `text` does not occur in it. */
  lemma FirstCharAbsent(pat: string, text: string)
    requires |pat| > 0
    requires forall i :: 0 <= i < |text| ==> text[i] != pat[0]
    ensures !Includes(text, pat)
  {
  }

  /** An occurrence inside the middle part of `a + b + c` is an occurrence in the whole. */
  lemma SubstringOfMiddle(pat: string, a: string, b: string, c: string)
    requires IsSubstring(pat, b)
    ensures IsSubstring(pat, a + b + c)
  {
    var i :| OccursAt(pat, b, i);
    var t := a + b + c;
    assert t[|a| + i..|a| + i + |pat|] == b[i..i + |pat|];
    assert OccursAt(pat, t, |a| + i);
  }
}

=== FILE: wrappers.dfy ===
/** Failure-carrying values shared by the rest of the model. */
module Wrappers {

  /** A value that may be absent: the source's `T | null`. */
  datatype Option<+T> = None | Some(value: T)

  /** Either a value or the reason there is none. */
  datatype Result<+T, +E> = Ok(value: T) | Err(error: E)
}
